=== FILE: README.md ===
# A Dafny model of aider's git wrapper

aider is an AI pair-programming tool. Its class `AiderRepo` (`aider/repo.py`)
wraps the git repository the user works in: it finds the one repository the
edited files belong to, stages files git does not track yet, and commits the
changes with a message that is given explicitly or generated by a chat model
from the diff.

The model keeps the decisions the wrapper makes and turns everything it asks
of git or of the chat service into plain inputs:

- `Git.Vcs` holds what git would answer: the dirty flag, the traversal of
  HEAD's tree (`None` when HEAD has no commit), the text of `git diff` for an
  argument list, and the sha HEAD has after a commit of a given message.
- `Resolution.Lookup` is git's answer for one candidate path: the repository's
  working directory, "not a repository", or "no such path".
- The chat service is an oracle `send(attempt, request)`. It either rejects the
  request or answers with the first choice's content, which may be missing.
- Every operation returns what it did as data. `Generation.Generation` lists
  the requests sent and the message produced. `Committing.CommitTrace` also
  holds the `git commit` arguments and the returned `(hash, message)`.

Modules: `Wrappers` (Option/Result), `PyText` (Python truthiness and
`str.strip`), `Git`, `Resolution` (the constructor), `Tracking`
(`get_tracked_files`, `add_new_files`), `Diffs` (`get_diffs`), `Generation`
(`get_commit_message`) and `Committing` (`commit`).

Points of the code the model keeps exactly as written:

- The size guard is `len(diffs) >= 16384` (aider/repo.py:90). A diff of
  exactly 16384 characters is refused, and one of 16383 is sent.
- The second iteration's loop variable names the 16k model, but the call
  passes `models.GPT35.name` (aider/repo.py:111-114), so the second attempt
  repeats the first request. Every request in the model names `Gpt35`.
- An answer whose content is missing or empty still ends the loop
  (aider/repo.py:119-120). The second model is not tried, and the commit
  falls back to the placeholder.
- Without an explicit message, `commit` diffs against `HEAD`
  (aider/repo.py:63, 137-140). In a repository whose branch has no commit yet
  git refuses that revision and the call raises, even though the tree can be
  dirty (files staged by `add_new_files`). The model returns
  `UnknownHeadRevision` there.

## Model

| member | source | states |
|---|---|---|
| Resolution.CandidatePaths | aider/repo.py:19-22 | The candidates are exactly the given names when there are any, and exactly `["."]` when none are given. |
| Resolution.FoundRoots | aider/repo.py:24-34 | The roots found are exactly the repositories some candidate lies in, at most one per candidate. Candidates outside a repository are skipped. |
| Resolution.Resolve | aider/repo.py:19-46 | Construction fails with a missing-path error iff some candidate does not exist. Otherwise it fails with "no repository" iff no candidate is in a repository, and with "different repos" iff two candidates are in different repositories. It succeeds with `root` iff some candidate is in `root` and every candidate that is in a repository is in `root`. |
| Resolution.ResolveDependsOnNameSet | aider/repo.py:36 | The outcome depends only on which names are candidates, because roots are counted as a set. |
| Resolution.ResolveOrderIrrelevant | aider/repo.py:36 | Swapping two groups of candidates does not change the outcome. |
| Resolution.ResolveIgnoresRepeats | aider/repo.py:36 | Repeating a candidate does not change the outcome: duplicate roots collapse. |
| Resolution.TwoCandidates | aider/repo.py:29-42 | Two files of one repository resolve to it. A file outside every repository is skipped next to one inside. Files of two repositories fail. A missing first file fails whatever the second is. |
| Tracking.BlobPaths | aider/repo.py:166-169 | The collected paths are exactly those of the blob entries; tree and submodule entries are dropped. |
| Tracking.TrackedFiles | aider/repo.py:157-174 | Without a HEAD commit the tracked set is empty. Otherwise a path is tracked iff HEAD's tree has a blob entry with that path. |
| Tracking.TrackedFilesExample | aider/repo.py:166-174 | A commit of `a/b.txt` and `c.txt` tracks exactly those two paths, not the directory `a`. |
| Tracking.NewFileAdds | aider/repo.py:48-54 | A name is added iff it is given and its resolved path is not the resolved path of a tracked file. Each untracked name is added once per occurrence; tracked names are never added. |
| Tracking.NewFileAddsAppend | aider/repo.py:50-54 | The adds follow input order: the adds for `a + b` are the adds for `a` followed by the adds for `b`. |
| Tracking.NewFileAddsInjective | aider/repo.py:49-51 | If path resolution is injective, a name is staged iff it is given and not itself a tracked path. |
| Tracking.NoHeadAddsEverything | aider/repo.py:48-54 | In a repository without commits every given name is added, in order. |
| Diffs.DiffArgs | aider/repo.py:134-138 | `pretty` puts `--color` before the caller's arguments. The caller's arguments are kept unchanged. `HEAD` is used only when nothing else is passed. |
| Diffs.GetDiffs | aider/repo.py:134-141 | The diff text is git's answer for `--color` followed by the caller's arguments when `pretty`, for the caller's arguments when there are some, and for `HEAD` when there are none. |
| Diffs.HeadOnlyWhenEmpty | aider/repo.py:135-138 | `HEAD` appears only if the caller passed it, or if `pretty` is off and no arguments were given. `pretty` with no arguments yields `--color` alone. |
| Generation.Prompt | aider/repo.py:96-101 | The prompt ends with the diffs header and then the diffs. It begins with the context and a newline iff there is context. |
| Generation.PromptInjective | aider/repo.py:96-101 | For a fixed context, different diffs give different prompts. |
| Generation.TryModels | aider/repo.py:110-122 | At most one request per model, and at least one when there are models. Every request names the primary model with the same prompt. Every request before the last was rejected. The loop stops at the first answer and takes its content. If it never gets an answer, it has tried every model and has no message. |
| Generation.GetCommitMessage | aider/repo.py:89-132 | Diffs at or over 16384 characters send nothing and give no message. Shorter diffs send one or two requests, each the same primary-model request with the prompt. If the first attempt is answered with content `c`, the message is the unquoted `c` when `c` is non-empty, and there is none otherwise. If the first is rejected, a second is sent: its answer gives the message in the same way, and a second rejection gives none. A message has no surrounding whitespace. |
| Generation.TwoAttempts | aider/repo.py:110-122 | Over the two candidate models, an answer to the first request ends the loop with its content; a rejection leads to exactly one more identical request, whose answer gives the content and whose rejection gives none. |
| Generation.SizeGuardBoundary | aider/repo.py:90-94 | The limit is 16384. A 16383-character diff is sent, and a 16384-character diff is not. |
| Generation.ReplyMessage | aider/repo.py:124-130 | There is no message iff the answer's content is missing or empty; otherwise the message is the unquoted content, with no surrounding whitespace. |
| Generation.Dequote | aider/repo.py:129-130 | On a stripped reply: an unwrapped reply is kept, a lone `"` becomes the empty string, and a longer wrapped reply loses its outer pair and is stripped again. The result has no surrounding whitespace and is no longer than the reply. |
| Generation.Unquote | aider/repo.py:128-130 | The result has no surrounding whitespace and is no longer than the reply. A stripped reply that is not wrapped in quotes is returned unchanged. A reply that strips to a lone `"` gives the empty string. |
| Generation.UnquoteWrapped | aider/repo.py:128-130 | Any reply whose stripped form is wrapped in quotes and longer than one character becomes that form without its outer quotes, stripped again. |
| Generation.UnquoteRoundTrip | aider/repo.py:128-130 | Padding any text with one pair of quotes and then whitespace, then unquoting, gives back the text stripped: `" \" fix \" "` gives `fix`. |
| Generation.UnquoteOfWrapped | aider/repo.py:129-130 | A quoted text loses exactly its outer quotes and is stripped. |
| Generation.UnquoteKeepsUnwrapped | aider/repo.py:128-129 | A trimmed reply that does not both start and end with a quote is unchanged. |
| Generation.UnquoteOneLayer | aider/repo.py:129-130 | Any doubly quoted reply keeps its inner pair of quotes: `""t""` gives `"t"` for every `t`, whitespace inside included. |
| Generation.UnquoteLoneQuote | aider/repo.py:129-130 | Any reply that strips to a single `"` becomes the empty string, since `'"'[1:-1]` is empty. |
| Generation.UnquoteLoneQuoteExample | aider/repo.py:128-130 | The reply ` " ` becomes the empty string. |
| Generation.UnquoteInnerQuotes | aider/repo.py:128-130 | For every reply, unquoting removes exactly the wrapping quotes: the count of `"` drops by two when the stripped reply is wrapped in quotes, by one for a lone `"`, and not at all otherwise, so every quote inside is kept. |
| Generation.DequoteKeepsInnerQuotes | aider/repo.py:129-130 | The same count, on an already stripped reply. |
| Generation.StripKeepsQuotes | aider/repo.py:128 | Stripping never removes a `"`: the count of `"` is unchanged. |
| Generation.UnquoteInnerQuotesExample | aider/repo.py:128-130 | For instance, `say "hi"` is returned unchanged. |
| PyText.TrimStart | aider/repo.py:128 | The result is a suffix of the input. Everything dropped is whitespace, and the result does not start with whitespace. |
| PyText.TrimEnd | aider/repo.py:128 | The result is a prefix of the input. Everything dropped is whitespace, and the result does not end with whitespace. |
| PyText.Strip | aider/repo.py:128 | The result has no whitespace at either end, is no longer than the input, and is empty iff the input is all whitespace. |
| PyText.StripOfPadded | aider/repo.py:128 | Strip is whitespace removal: stripping whitespace + a trimmed middle + whitespace gives that middle. |
| PyText.StripIdempotent | aider/repo.py:128-130 | Stripping twice equals stripping once. |
| Committing.ShortSha | aider/repo.py:78 | The hash is the first seven characters of the sha, or the whole sha if it is shorter. |
| Committing.FullMessage | aider/repo.py:73-75 | The committed text starts with the message. With context, the rest is the chat header followed by the context; without context, it is the message alone. |
| Committing.Commit | aider/repo.py:56-81 | A clean tree sends nothing, commits nothing and returns nothing. A dirty tree without an explicit message raises iff HEAD has no commit; in every other dirty case it commits. An explicit message sends no request. Otherwise the requests are those for the diff against `HEAD`. The returned message is the prefix plus the explicit message, or else the prefix plus the generated message, or else the prefix plus the placeholder. `git commit` gets `-a -m <message + chat section> --no-verify`, and the hash is the short sha of the resulting commit. |
| Committing.CommittedMessageShape | aider/repo.py:67-81 | Whenever a dirty tree commits, the returned message is longer than the prefix and starts with it. The hash has at most seven characters. The committed text starts with the returned message and, with context, is that message + chat header + context. |
| Committing.ExplicitMessageIgnoresGeneration | aider/repo.py:60-65 | With an explicit message, neither the chat oracle, nor the diff text, nor whether HEAD has a commit can change the commit. |
| Committing.ContextOnlyInCommittedText | aider/repo.py:73-81 | With an explicit message, changing the context does not change the returned message. |
| Committing.PlaceholderWhenGenerationFails | aider/repo.py:63-68 | Without an explicit message and with a HEAD commit, the returned message is the prefix plus `(no commit message provided)` when the diff is too large or both attempts are rejected. |

## Left out

- Git itself (`git.Repo`, `diff`, `add`, `commit`, `is_dirty`, tree traversal, `iter_commits`) is a foreign library. Its answers are fields of `Git.Vcs` and the `locate` oracle.
- `Path.resolve`, `utils.safe_abs_path` and git's search of parent directories are filesystem lookups. In resolution all three are folded into `locate`, and the root is taken to be the found working directory as it is. `add_new_files` uses only `Path.resolve` (aider/repo.py:49, 51), which is the `resolve` parameter.
- Converting git's forward-slash paths to the host separator (aider/repo.py:171-172) depends on the OS. The model treats it as the identity, so tracked paths are git's paths.
- `send_with_retries` (retry and back-off), the system prompt text and the OpenAI client are network I/O. The oracle stands for the whole call. An exception other than a rejected request or a malformed response would propagate; it is not modelled.
- `io.tool_output`, `io.tool_error`, `dump` and the notices "Adding … to git", "Commit …", "Files are in different git repos." and "Diff is too large …" are user-visible output only.
- `show_diffs` only prints the diff when the branch has commits. `get_rel_repo_dir` is a path computation against the current directory. `is_dirty` returns git's answer, which is `Vcs.dirty`.
- The `if not self.repo` branch of `get_tracked_files` cannot be reached: a constructed `AiderRepo` always has a root.
- Failures of git commands during `add` or `commit` are not modelled; the model assumes git does what is asked. The one diff failure modelled is `git diff HEAD` before the first commit. `get_diffs` called directly with a revision git does not know is not modelled: `Vcs.diff` answers every argument list.

=== FILE: committing.dfy ===
/** Committing (`commit`): choosing the message, prefixing it, attaching the
    chat context to the committed text only, and reporting the short hash. */
module Committing {
  import opened Wrappers
  import opened PyText
  import opened Git
  import opened Diffs
  import opened Generation

  /** Used when there is neither an explicit nor a generated message. */
  const Placeholder := "(no commit message provided)"

  /** Separates the message from the chat context in the committed text. */
  const ChatHeader := "\n\n# Aider chat conversation:\n\n"

  const ShortShaLength: nat := 7

  /** The value `commit` returns: the short hash and the message without the
      chat context. */
  datatype Committed = Committed(hash: string, message: string)

  /** What one `commit` call did: the chat-completion requests it sent, the
      arguments of the `git commit` it ran (`None` if it ran none) and what it
      returned (`None` for Python's bare `return`). */
  datatype CommitTrace = CommitTrace(requests: seq<Request>, commitArgs: Option<seq<string>>, result: Option<Committed>)

  /** `sha[:7]`: the first seven characters, or all of a shorter string. */
  function ShortSha(sha: string): (h: string)
    ensures |h| == if |sha| < ShortShaLength then |sha| else ShortShaLength
    ensures h == sha[..|h|]
  {
    if |sha| < ShortShaLength then sha else sha[..ShortShaLength]
  }

  /** The text a prefix contributes: nothing when it is `None` or empty. */
  function PrefixText(prefix: Option<string>): string {
    if Truthy(prefix) then prefix.value else ""
  }

  /** The text handed to `git commit -m`: the message, followed by the chat
      header and the context when there is context. */
  function FullMessage(message: string, context: Option<string>): (full: string)
    ensures |full| >= |message| && full[..|message|] == message
    ensures Truthy(context) ==> full[|message|..] == ChatHeader + context.value
    ensures !Truthy(context) ==> full == message
  {
    if Truthy(context) then message + ChatHeader + context.value else message
  }

  /** Why `commit` raises: with no explicit message it runs `git diff HEAD`,
      and git refuses `HEAD` while the branch has no commit yet. */
  datatype CommitError = UnknownHeadRevision

  /** `commit`. A clean tree commits nothing. Otherwise the message is the
      explicit one if given, else a generated one from the diff against
      HEAD, else the placeholder; the prefix goes in front; the context is
      appended to the committed text but not to the returned message. The
      diff against HEAD raises in a repository without commits. */
  function Commit(vcs: Vcs, context: Option<string>, prefix: Option<string>, message: Option<string>,
                  send: (nat, Request) -> Reply): (r: Result<CommitTrace, CommitError>)
    ensures r.Failure? <==> vcs.dirty && !Truthy(message) && vcs.head.None?
    ensures !vcs.dirty ==> r == Success(CommitTrace([], None, None))
    ensures vcs.dirty && r.Success? ==> r.value.result.Some?
    ensures r.Success? && Truthy(message) ==> r.value.requests == []
    ensures vcs.dirty && r.Success? && !Truthy(message) ==>
      r.value.requests == GetCommitMessage(vcs.diff([HeadRef]), context, send).requests
    ensures r.Success? && r.value.result.Some? ==>
      var t := r.value;
      && t.commitArgs == Some(["-a", "-m", FullMessage(t.result.value.message, context), "--no-verify"])
      && t.result.value.hash == ShortSha(vcs.shaAfterCommit(FullMessage(t.result.value.message, context)))
    ensures r.Success? && r.value.result.Some? && Truthy(message) ==>
      r.value.result.value.message == PrefixText(prefix) + message.value
    ensures r.Success? && r.value.result.Some? && !Truthy(message) ==>
      var generated := GetCommitMessage(vcs.diff([HeadRef]), context, send).message;
      r.value.result.value.message == PrefixText(prefix) + (if Truthy(generated) then generated.value else Placeholder)
  {
    if !vcs.dirty then Success(CommitTrace([], None, None))
    else if !Truthy(message) && vcs.head.None? then Failure(UnknownHeadRevision)
    else
      var chosen :=
        if Truthy(message) then GenerationTrace([], message)
        else GetCommitMessage(GetDiffs(vcs, false, []), context, send);
      var base := if Truthy(chosen.message) then chosen.message.value else Placeholder;
      var committed := PrefixText(prefix) + base;
      var full := FullMessage(committed, context);
      Success(CommitTrace(chosen.requests, Some(["-a", "-m", full, "--no-verify"]),
                          Some(Committed(ShortSha(vcs.shaAfterCommit(full)), committed))))
  }

  /** The returned message is never empty, always starts with the prefix,
      and the committed text starts with it; with context, the rest of the
      committed text is exactly the chat section. */
  lemma CommittedMessageShape(vcs: Vcs, context: Option<string>, prefix: Option<string>, message: Option<string>,
                              send: (nat, Request) -> Reply)
    requires vcs.dirty && (Truthy(message) || vcs.head.Some?)
    ensures var r := Commit(vcs, context, prefix, message, send);
      && r.Success? && r.value.result.Some?
      && |r.value.result.value.message| > |PrefixText(prefix)|
      && r.value.result.value.message[..|PrefixText(prefix)|] == PrefixText(prefix)
      && |r.value.result.value.hash| <= ShortShaLength
      && var full := r.value.commitArgs.value[2];
         && full[..|r.value.result.value.message|] == r.value.result.value.message
         && (Truthy(context) ==> full == r.value.result.value.message + ChatHeader + context.value)
  {
    var t := Commit(vcs, context, prefix, message, send).value;
    var m := t.result.value.message;
    var p := PrefixText(prefix);
    assert |Placeholder| > 0;
    assert m[..|p|] == p;
    var full := FullMessage(m, context);
    if Truthy(context) {
      assert full == full[..|m|] + full[|m|..];
    }
  }

  /** With an explicit message the generator is never consulted: neither the
      oracle nor the diff, nor whether HEAD has a commit, can change what is
      committed or returned. */
  lemma ExplicitMessageIgnoresGeneration(vcs: Vcs, vcs': Vcs, context: Option<string>, prefix: Option<string>,
                                         message: Option<string>, send: (nat, Request) -> Reply,
                                         send': (nat, Request) -> Reply)
    requires Truthy(message)
    requires vcs'.dirty == vcs.dirty && vcs'.shaAfterCommit == vcs.shaAfterCommit
    ensures Commit(vcs, context, prefix, message, send) == Commit(vcs', context, prefix, message, send')
  {
  }

  /** The context never reaches the returned message when the message is
      explicit: only the committed text differs. */
  lemma ContextOnlyInCommittedText(vcs: Vcs, context: Option<string>, context': Option<string>,
                                   prefix: Option<string>, message: Option<string>, send: (nat, Request) -> Reply)
    requires vcs.dirty && Truthy(message)
    ensures Commit(vcs, context, prefix, message, send).value.result.value.message
         == Commit(vcs, context', prefix, message, send).value.result.value.message
  {
  }

  /** When generation yields nothing (the diff is too large, or every attempt
      was rejected), the placeholder is committed after the prefix. */
  lemma PlaceholderWhenGenerationFails(vcs: Vcs, context: Option<string>, prefix: Option<string>,
                                       message: Option<string>, send: (nat, Request) -> Reply)
    requires vcs.dirty && !Truthy(message) && vcs.head.Some?
    requires |vcs.diff([HeadRef])| >= MaxDiffLength
             || forall k: nat :: k < |Candidates| ==> send(k, Request(Gpt35, Prompt(vcs.diff([HeadRef]), context))) == Rejected
    ensures Commit(vcs, context, prefix, message, send).value.result.value.message == PrefixText(prefix) + Placeholder
  {
    var d := vcs.diff([HeadRef]);
    var g := GetCommitMessage(d, context, send);
    if |d| < MaxDiffLength {
      assert send(0, Request(Gpt35, Prompt(d, context))) == Rejected;
      assert send(1, Request(Gpt35, Prompt(d, context))) == Rejected;
    }
  }
}

=== FILE: diffs.dfy ===
/** The argument list `get_diffs` hands to `git diff`. */
module Diffs {
  import opened Git

  const ColorFlag := "--color"
  const HeadRef := "HEAD"

  /** The arguments of `git diff`: the caller's arguments, preceded by
      `--color` when `pretty`; `HEAD` only when that leaves nothing at all. */
  function DiffArgs(pretty: bool, args: seq<string>): (r: seq<string>)
    ensures |r| > 0
    ensures pretty ==> r[0] == ColorFlag && r[1..] == args
    ensures !pretty && args != [] ==> r == args
    ensures !pretty && args == [] ==> r == [HeadRef]
  {
    var withColor := if pretty then [ColorFlag] + args else args;
    if withColor == [] then [HeadRef] else withColor
  }

  /** `HEAD` is added only to an otherwise empty argument list: it never
      appears in the result unless the caller passed it or there was nothing
      else to pass. */
  lemma HeadOnlyWhenEmpty(pretty: bool, args: seq<string>)
    ensures HeadRef in DiffArgs(pretty, args) ==> HeadRef in args || (!pretty && args == [])
    ensures |DiffArgs(pretty, args)| == if pretty then 1 + |args| else if args == [] then 1 else |args|
  {
    var r := DiffArgs(pretty, args);
    if pretty && HeadRef in r {
      assert HeadRef != ColorFlag;
      var k :| 0 <= k < |r| && r[k] == HeadRef;
      assert r[1..][k - 1] == HeadRef;
    }
  }

  /** `get_diffs`: the text git prints for those arguments. */
  function GetDiffs(vcs: Vcs, pretty: bool, args: seq<string>): (r: string)
    ensures pretty ==> r == vcs.diff([ColorFlag] + args)
    ensures !pretty && args != [] ==> r == vcs.diff(args)
    ensures !pretty && args == [] ==> r == vcs.diff([HeadRef])
  {
    vcs.diff(DiffArgs(pretty, args))
  }
}

=== FILE: generation.dfy ===
/** Generated commit messages (`get_commit_message`). The chat-completion
    service is the oracle `send`: given the attempt number and the request,
    it either rejects the request (an `openai.error.InvalidRequestError`, or
    an `AttributeError` while reading the response, both caught at
    aider/repo.py:121) or answers with the content
    of the first choice, which may itself be missing. */
module Generation {
  import opened Wrappers
  import opened PyText

  /** Diffs of this many characters or more are never sent. */
  const MaxDiffLength: nat := 4 * 1024 * 4

  const DiffsHeader := "# Diffs:\n"

  datatype Model = Gpt35 | Gpt35With16k

  /** The models the loop iterates over, in order. */
  const Candidates: seq<Model> := [Gpt35, Gpt35With16k]

  /** One chat-completion request: the model named in the call and the user
      message. The system message is the fixed commit-message instruction
      and is not modelled. */
  datatype Request = Request(model: Model, content: string)

  datatype Reply = Rejected | Answered(content: Option<string>)

  /** What one generation did: the requests it sent, in order, and the
      message it produced. */
  datatype GenerationTrace = GenerationTrace(requests: seq<Request>, message: Option<string>)

  /** The user message: the context and a newline when there is context,
      then the diffs header, then the diffs. */
  function Prompt(diffs: string, context: Option<string>): (p: string)
    ensures |p| >= |DiffsHeader| + |diffs|
    ensures p[|p| - |diffs|..] == diffs
    ensures p[|p| - |diffs| - |DiffsHeader|..|p| - |diffs|] == DiffsHeader
    ensures Truthy(context) ==> |p| == |context.value| + 1 + |DiffsHeader| + |diffs|
    ensures Truthy(context) ==> p[..|context.value| + 1] == context.value + "\n"
    ensures !Truthy(context) ==> |p| == |DiffsHeader| + |diffs|
  {
    var lead := if Truthy(context) then context.value + "\n" else "";
    assert (lead + (DiffsHeader + diffs))[..|lead|] == lead;
    lead + (DiffsHeader + diffs)
  }

  /** The prompt loses nothing: equal prompts for the same context come from
      equal diffs. */
  lemma PromptInjective(d1: string, d2: string, context: Option<string>)
    requires Prompt(d1, context) == Prompt(d2, context)
    ensures d1 == d2
  {
    var p := Prompt(d1, context);
    var lead := if Truthy(context) then |context.value| + 1 else 0;
    assert |p| == lead + |DiffsHeader| + |d1|;
    assert |p| == lead + |DiffsHeader| + |d2|;
    assert d1 == p[|p| - |d1|..];
  }

  /** The loop over `models`: one request per model until the first answer.
      The request always names `Gpt35`, whatever model the loop is at,
      because the call passes the primary model's name rather than the loop
      variable. An answer ends the loop even when its content is missing. */
  function TryModels(models: seq<Model>, attempt: nat, content: string, send: (nat, Request) -> Reply): (g: GenerationTrace)
    ensures |g.requests| <= |models|
    ensures models != [] ==> |g.requests| >= 1
    ensures forall k :: 0 <= k < |g.requests| ==> g.requests[k] == Request(Gpt35, content)
    ensures forall k :: 0 <= k < |g.requests| - 1 ==> send(attempt + k, g.requests[k]) == Rejected
    ensures g.requests == [] ==> g.message == None
    ensures g.requests != [] ==>
      match send(attempt + |g.requests| - 1, Request(Gpt35, content))
      case Answered(c) => g.message == c
      case Rejected => |g.requests| == |models| && g.message == None
    decreases |models|
  {
    if models == [] then GenerationTrace([], None)
    else
      var request := Request(Gpt35, content);
      match send(attempt, request)
      case Answered(c) => GenerationTrace([request], c)
      case Rejected =>
        var rest := TryModels(models[1..], attempt + 1, content, send);
        GenerationTrace([request] + rest.requests, rest.message)
  }

  /** The stripped reply both starts and ends with a double quote (a lone
      `"` counts as both). */
  predicate QuoteWrapped(s: string)
  {
    |s| > 0 && s[0] == '"' && s[|s| - 1] == '"'
  }

  /** Removes one pair of double quotes around the reply, if the stripped
      reply both starts and ends with one, and strips again. A lone `"`
      counts as both and leaves the empty string. */
  function Unquote(raw: string): (r: string)
    ensures Trimmed(r)
    ensures |r| <= |raw|
    ensures !QuoteWrapped(Strip(raw)) ==> r == Strip(raw)
    ensures Strip(raw) == "\"" ==> r == ""
  {
    Dequote(Strip(raw))
  }

  /** The second half of `Unquote`, on the already stripped reply. */
  function Dequote(s: string): (r: string)
    requires Trimmed(s)
    ensures Trimmed(r)
    ensures |r| <= |s|
    ensures !QuoteWrapped(s) ==> r == s
    ensures QuoteWrapped(s) && |s| > 1 ==> r == Strip(s[1..|s| - 1])
    ensures QuoteWrapped(s) && |s| == 1 ==> r == ""
  {
    if QuoteWrapped(s) then
      if |s| == 1 then "" else Strip(s[1..|s| - 1])
    else s
  }

  /** `get_commit_message`: nothing is sent for diffs at or over the limit;
      otherwise the prompt is sent, to the primary model on every attempt,
      until the first answer, and an answer with non-empty content is
      unquoted. */
  function GetCommitMessage(diffs: string, context: Option<string>, send: (nat, Request) -> Reply): (g: GenerationTrace)
    ensures |diffs| >= MaxDiffLength ==> g == GenerationTrace([], None)
    ensures |diffs| < MaxDiffLength ==> 1 <= |g.requests| <= |Candidates|
    ensures forall k :: 0 <= k < |g.requests| ==> g.requests[k] == Request(Gpt35, Prompt(diffs, context))
    ensures g.message.Some? ==>
      match send(|g.requests| - 1, Request(Gpt35, Prompt(diffs, context)))
      case Answered(Some(raw)) => raw != "" && g.message.value == Unquote(raw)
      case _ => false
    ensures |diffs| < MaxDiffLength ==>
      match send(0, Request(Gpt35, Prompt(diffs, context)))
      case Answered(c) =>
        g == GenerationTrace([Request(Gpt35, Prompt(diffs, context))], ReplyMessage(c))
      case Rejected =>
        && |g.requests| == 2
        && g.message == match send(1, Request(Gpt35, Prompt(diffs, context)))
                        case Answered(c) => ReplyMessage(c)
                        case Rejected => None
    ensures g.message.Some? ==> Trimmed(g.message.value)
  {
    if |diffs| >= MaxDiffLength then GenerationTrace([], None)
    else
      var content := Prompt(diffs, context);
      var tried := TryModels(Candidates, 0, content, send);
      TwoAttempts(content, send);
      GenerationTrace(tried.requests, ReplyMessage(tried.message))
  }

  /** The message made from an answer's content: none when the content is
      missing or empty, the unquoted content otherwise. */
  function ReplyMessage(c: Option<string>): (m: Option<string>)
    ensures m.Some? <==> Truthy(c)
    ensures m.Some? ==> m.value == Unquote(c.value) && Trimmed(m.value)
  {
    if Truthy(c) then Some(Unquote(c.value)) else None
  }

  /** The loop over the two candidate models: the first answer ends it,
      and a rejection leads to exactly one more identical request. */
  lemma TwoAttempts(content: string, send: (nat, Request) -> Reply)
    ensures var g := TryModels(Candidates, 0, content, send);
            var request := Request(Gpt35, content);
            match send(0, request)
            case Answered(c) => g == GenerationTrace([request], c)
            case Rejected =>
              && g.requests == [request, request]
              && g.message == match send(1, request)
                              case Answered(c) => c
                              case Rejected => None
  {
    var request := Request(Gpt35, content);
    if send(0, request).Rejected? {
      var rest := TryModels(Candidates[1..], 1, content, send);
      assert Candidates[1..][1..] == [];
      assert |rest.requests| == 1;
    }
  }

  /** The size guard compares with `>=`: a diff one character shorter than
      the limit is sent, a diff of exactly the limit is not. */
  lemma SizeGuardBoundary(context: Option<string>, send: (nat, Request) -> Reply)
    ensures MaxDiffLength == 16384
    ensures forall d: string :: |d| == MaxDiffLength - 1 ==> GetCommitMessage(d, context, send).requests != []
    ensures forall d: string :: |d| == MaxDiffLength ==> GetCommitMessage(d, context, send) == GenerationTrace([], None)
  {
  }

  /** A reply that is any text wrapped in quotes and padded with whitespace
      comes back as that text, stripped: one layer of quotes goes, any quotes
      inside stay, and whitespace inside the quotes is trimmed too. */
  lemma UnquoteRoundTrip(a: string, t: string, b: string)
    requires AllSpace(a) && AllSpace(b)
    ensures Unquote(a + ("\"" + t + "\"") + b) == Strip(t)
  {
    var q := "\"" + t + "\"";
    assert Trimmed(q) by {
      assert q[0] == '"' && q[|q| - 1] == '"';
    }
    StripOfPadded(a, q, b);
    assert a + ("\"" + t + "\"") + b == a + q + b;
    UnquoteOfWrapped(q, t);
  }

  /** A text in quotes loses exactly its outer pair and is stripped. */
  lemma UnquoteOfWrapped(q: string, t: string)
    requires q == "\"" + t + "\""
    ensures Unquote(q) == Strip(t)
  {
    WrappedShape(q, t);
    UnquoteOfTrimmedWrapped(q);
  }

  /** A reply whose stripped form is wrapped in quotes loses that pair and
      is stripped again. */
  lemma UnquoteWrapped(raw: string)
    ensures var s := Strip(raw); QuoteWrapped(s) && |s| > 1 ==> Unquote(raw) == Strip(s[1..|s| - 1])
  {
  }

  lemma UnquoteOfTrimmedWrapped(q: string)
    requires Trimmed(q) && QuoteWrapped(q) && |q| > 1
    ensures Unquote(q) == Strip(q[1..|q| - 1])
  {
    StripTrimmed(q);
    UnquoteWrapped(q);
  }

  lemma WrappedShape(q: string, t: string)
    requires q == "\"" + t + "\""
    ensures |q| > 1 && QuoteWrapped(q)
    ensures q[1..|q| - 1] == t
    ensures Trimmed(q)
  {
  }

  /** A trimmed reply that does not both start and end with a quote is kept
      as it is. */
  lemma UnquoteKeepsUnwrapped(t: string)
    requires Trimmed(t)
    requires !QuoteWrapped(t)
    ensures Unquote(t) == t
  {
    StripTrimmed(t);
  }

  /** Only the outermost pair of quotes is removed: a doubly quoted trimmed
      text keeps its inner pair. */
  lemma UnquoteOneLayer(t: string)
    ensures Unquote("\"\"" + t + "\"\"") == "\"" + t + "\""
  {
    var u := "\"" + t + "\"";
    WrappedShape(u, t);
    DoubleQuoted(t);
    UnquoteOfWrapped("\"\"" + t + "\"\"", u);
    StripTrimmed(u);
  }

  lemma DoubleQuoted(t: string)
    ensures "\"\"" + t + "\"\"" == "\"" + ("\"" + t + "\"") + "\""
  {
  }

  /** A reply that strips to a lone quote character becomes the empty
      message, since `'"'[1:-1]` is empty. */
  lemma UnquoteLoneQuote(raw: string)
    requires Strip(raw) == "\""
    ensures Unquote(raw) == ""
  {
  }

  /** For instance ` " ` (a quote between spaces). */
  lemma UnquoteLoneQuoteExample()
    ensures Unquote(" \" ") == ""
  {
    StripOfPadded(" ", "\"", " ");
    assert " " + "\"" + " " == " \" ";
    UnquoteLoneQuote(" \" ");
  }

  /** Unquoting removes exactly the wrapping quotes and no other: the reply
      loses two quote characters when its stripped form is wrapped in quotes
      (one for a lone quote) and none otherwise, so every quote inside the
      reply is kept. */
  lemma UnquoteInnerQuotes(raw: string)
    ensures var s := Strip(raw);
            multiset(Unquote(raw))['"'] + (if QuoteWrapped(s) then (if |s| == 1 then 1 else 2) else 0)
            == multiset(raw)['"']
  {
    StripKeepsQuotes(raw);
    DequoteKeepsInnerQuotes(Strip(raw));
  }

  /** `Dequote` takes away the outer pair of quotes and nothing else. */
  lemma DequoteKeepsInnerQuotes(s: string)
    requires Trimmed(s)
    ensures multiset(Dequote(s))['"'] + (if QuoteWrapped(s) then (if |s| == 1 then 1 else 2) else 0)
            == multiset(s)['"']
  {
    if QuoteWrapped(s) && |s| > 1 {
      var m := s[1..|s| - 1];
      assert s == [s[0]] + m + [s[|s| - 1]];
      StripKeepsQuotes(m);
    }
  }

  /** Stripping removes only whitespace, so no quote character. */
  lemma StripKeepsQuotes(s: string)
    ensures multiset(Strip(s))['"'] == multiset(s)['"']
  {
    var t := TrimStart(s);
    QuotesThroughTrim(s, t, TrimEnd(t));
  }

  /** The same, over the facts `TrimStart` and `TrimEnd` state. */
  lemma QuotesThroughTrim(s: string, t: string, r: string)
    requires |t| <= |s| && t == s[|s| - |t|..]
    requires AllSpace(s[..|s| - |t|])
    requires |r| <= |t| && r == t[..|r|]
    requires AllSpace(t[|r|..])
    ensures multiset(r)['"'] == multiset(s)['"']
  {
    var a := s[..|s| - |t|];
    var b := t[|r|..];
    assert s == a + t;
    assert t == r + b;
    NoQuoteInSpace(a);
    NoQuoteInSpace(b);
  }

  lemma NoQuoteInSpace(a: string)
    requires AllSpace(a)
    ensures multiset(a)['"'] == 0
  {
    assert !IsSpace('"');
    assert '"' !in a;
  }

  /** For instance the quotes in `say "hi"` are kept. */
  lemma UnquoteInnerQuotesExample()
    ensures Unquote("say \"hi\"") == "say \"hi\""
  {
    UnquoteKeepsUnwrapped("say \"hi\"");
  }
}

=== FILE: git.dfy ===
/** The version-control state the wrapper consults, as plain data. Every git
    operation the wrapper performs becomes a field here: the model never
    runs git, it only reads what git would answer. */
module Git {
  import opened Wrappers

  /** A path as git and the operating system print it. */
  type Path = string

  /** The object types a tree traversal yields: files are blobs, directories
      are trees, and submodules appear as commit entries. */
  datatype ObjectKind = Blob | Tree | Submodule

  datatype TreeEntry = TreeEntry(kind: ObjectKind, path: Path)

  /** What the wrapper can observe of one working copy:
      - `dirty`: the answer of `is_dirty()`;
      - `head`: the full traversal of the tree of the HEAD commit, or `None`
        when HEAD does not name a commit yet (a fresh repository);
      - `diff`: the text `git diff` prints for a given argument list;
      - `shaAfterCommit`: the hex sha HEAD points to after committing the
        given full message with `commit -a -m <message> --no-verify`. */
  datatype Vcs = Vcs(
    dirty: bool,
    head: Option<seq<TreeEntry>>,
    diff: seq<string> -> string,
    shaAfterCommit: string -> string
  )
}

=== FILE: pytext.dfy ===
/** The two pieces of Python string semantics the repository wrapper relies on:
    truthiness of an optional string (`if message:`) and `str.strip()` with no
    arguments, which removes leading and trailing whitespace as defined by
    `str.isspace`. */
module PyText {
  import opened Wrappers

  /** Python's `bool(x)` for a value that is `None` or a `str`:
      both `None` and the empty string are falsy. */
  predicate Truthy(s: Option<string>) {
    s.Some? && s.value != ""
  }

  /** The characters Python's `str.isspace` accepts, and hence the characters
      `str.strip()` removes: ASCII tab to carriage return, the four
      information separators, space, NEL, no-break space and the Unicode
      space separators and line/paragraph separators. */
  predicate IsSpace(c: char) {
    var n := c as int;
    || n == 0x20
    || 0x09 <= n <= 0x0D
    || 0x1C <= n <= 0x1F
    || n == 0x85
    || n == 0xA0
    || n == 0x1680
    || 0x2000 <= n <= 0x200A
    || n == 0x2028
    || n == 0x2029
    || n == 0x202F
    || n == 0x205F
    || n == 0x3000
  }

  predicate AllSpace(s: string) {
    forall k :: 0 <= k < |s| ==> IsSpace(s[k])
  }

  /** A string with no whitespace at either end: the shape `strip` produces. */
  predicate Trimmed(s: string) {
    s == [] || (!IsSpace(s[0]) && !IsSpace(s[|s| - 1]))
  }

  /** `s.lstrip()`: the suffix of `s` left after dropping its leading whitespace. */
  function TrimStart(s: string): (r: string)
    ensures |r| <= |s| && r == s[|s| - |r|..]
    ensures AllSpace(s[..|s| - |r|])
    ensures r == [] || !IsSpace(r[0])
  {
    if |s| > 0 && IsSpace(s[0]) then
      var r := TrimStart(s[1..]);
      DropFirstSpace(s, r);
      r
    else s
  }

  /** The step of `TrimStart`: a suffix of `s[1..]` behind whitespace is a
      suffix of `s` behind whitespace when `s[0]` is whitespace too. */
  lemma DropFirstSpace(s: string, r: string)
    requires |s| > 0 && IsSpace(s[0])
    requires |r| <= |s| - 1 && r == s[1..][|s| - 1 - |r|..]
    requires AllSpace(s[1..][..|s| - 1 - |r|])
    ensures r == s[|s| - |r|..]
    ensures AllSpace(s[..|s| - |r|])
  {
    var n := |s| - |r|;
    forall k | 0 <= k < n ensures IsSpace(s[..n][k]) {
      if k > 0 {
        assert s[..n][k] == s[1..][..n - 1][k - 1];
      }
    }
  }

  /** `s.rstrip()`: the prefix of `s` left after dropping its trailing whitespace. */
  function TrimEnd(s: string): (r: string)
    ensures |r| <= |s| && r == s[..|r|]
    ensures AllSpace(s[|r|..])
    ensures r == [] || !IsSpace(r[|r| - 1])
  {
    if |s| > 0 && IsSpace(s[|s| - 1]) then
      var r := TrimEnd(s[..|s| - 1]);
      DropLastSpace(s, r);
      r
    else s
  }

  /** The step of `TrimEnd`, mirrored. */
  lemma DropLastSpace(s: string, r: string)
    requires |s| > 0 && IsSpace(s[|s| - 1])
    requires |r| <= |s| - 1 && r == s[..|s| - 1][..|r|]
    requires AllSpace(s[..|s| - 1][|r|..])
    ensures r == s[..|r|]
    ensures AllSpace(s[|r|..])
  {
    var n := |r|;
    forall k | 0 <= k < |s| - n ensures IsSpace(s[n..][k]) {
      if k < |s| - 1 - n {
        assert s[n..][k] == s[..|s| - 1][n..][k];
      }
    }
  }

  /** `s.strip()`. */
  function Strip(s: string): (r: string)
    ensures Trimmed(r)
    ensures |r| <= |s|
    ensures r == [] <==> AllSpace(s)
  {
    var t := TrimStart(s);
    var r := TrimEnd(t);
    BothEndsTrimmed(t, r);
    EmptyStripAllSpace(s, t, r);
    r
  }

  /** Trimming the end of a string that does not start with whitespace
      leaves a string trimmed at both ends. */
  lemma BothEndsTrimmed(t: string, r: string)
    requires t == [] || !IsSpace(t[0])
    requires |r| <= |t| && r == t[..|r|]
    requires r == [] || !IsSpace(r[|r| - 1])
    ensures Trimmed(r)
  {
    if r != [] {
      assert r[0] == t[0];
    }
  }

  /** Nothing is left of `s` after trimming both ends exactly when `s` is all
      whitespace. */
  lemma EmptyStripAllSpace(s: string, t: string, r: string)
    requires |t| <= |s| && t == s[|s| - |t|..]
    requires AllSpace(s[..|s| - |t|])
    requires t == [] || !IsSpace(t[0])
    requires |r| <= |t| && r == t[..|r|]
    requires AllSpace(t[|r|..])
    ensures r == [] <==> AllSpace(s)
  {
    if r == [] {
      assert t[|r|..] == t;
      assert s == s[..|s| - |t|] + t;
      AllSpaceConcat(s[..|s| - |t|], t);
    } else {
      assert t[0] == s[|s| - |t|];
    }
  }

  lemma AllSpaceConcat(a: string, b: string)
    requires AllSpace(a) && AllSpace(b)
    ensures AllSpace(a + b)
  {
    forall k | 0 <= k < |a + b| ensures IsSpace((a + b)[k]) {
      if k < |a| { assert (a + b)[k] == a[k]; } else { assert (a + b)[k] == b[k - |a|]; }
    }
  }

  /** Dropping whitespace before a string that does not itself start with
      whitespace leaves exactly that string. */
  lemma {:induction false} TrimStartSkips(a: string, t: string)
    requires AllSpace(a)
    requires t == [] || !IsSpace(t[0])
    ensures TrimStart(a + t) == t
  {
    if a == [] {
      assert a + t == t;
    } else {
      assert (a + t)[0] == a[0];
      assert (a + t)[1..] == a[1..] + t;
      TrimStartSkips(a[1..], t);
    }
  }

  /** Dropping whitespace after a string that does not itself end with
      whitespace leaves exactly that string. */
  lemma {:induction false} TrimEndSkips(t: string, b: string)
    requires AllSpace(b)
    requires t == [] || !IsSpace(t[|t| - 1])
    ensures TrimEnd(t + b) == t
  {
    if b == [] {
      assert t + b == t;
    } else {
      var s := t + b;
      assert s[|s| - 1] == b[|b| - 1];
      assert s[..|s| - 1] == t + b[..|b| - 1];
      TrimEndSkips(t, b[..|b| - 1]);
    }
  }

  /** `strip` is characterised independently of its definition: whenever `s`
      splits into whitespace, a trimmed middle and whitespace, `strip`
      returns that middle. */
  lemma StripOfPadded(a: string, m: string, b: string)
    requires AllSpace(a) && AllSpace(b)
    requires Trimmed(m)
    ensures Strip(a + m + b) == m
  {
    if m == [] {
      assert a + m + b == a + b;
      AllSpaceConcat(a, b);
    } else {
      assert a + m + b == a + (m + b);
      TrimStartSkips(a, m + b);
      TrimEndSkips(m, b);
    }
  }

  /** A string without surrounding whitespace is its own strip. */
  lemma StripTrimmed(s: string)
    requires Trimmed(s)
    ensures Strip(s) == s
  {
    assert [] + s + [] == s;
    StripOfPadded([], s, []);
  }

  /** Stripping twice is the same as stripping once. */
  lemma StripIdempotent(s: string)
    ensures Strip(Strip(s)) == Strip(s)
  {
    StripTrimmed(Strip(s));
  }
}

=== FILE: resolution.dfy ===
/** Finding the one repository the wrapper manages (the constructor of the
    repository wrapper). Each candidate path is resolved to an absolute path and git
    searches it and its parents for a working directory; those lookups are
    the `locate` oracle. */
module Resolution {
  import opened Wrappers
  import opened Git

  /** What git reports for one candidate path: the working directory of the
      repository that contains it, that no repository contains it
      (`InvalidGitRepositoryError`, which is skipped), or that the path does
      not exist (`NoSuchPathError`, which is not caught). */
  datatype Lookup = InRepo(root: Path) | NotARepo | NoSuchPath

  /** Why construction fails: an uncaught `NoSuchPathError`, or one of the two
      `FileNotFoundError`s. */
  datatype ResolveError = MissingPath | NoRepository | DifferentRepos

  /** A successfully constructed wrapper: it always holds a root. */
  datatype AiderRepo = AiderRepo(root: Path)

  /** The directory checked when no file names are given. */
  const CurrentDir: Path := "."

  /** The paths that are searched: the given names, or the current directory
      when there are none. */
  function CandidatePaths(fnames: seq<Path>): (r: seq<Path>)
    ensures |r| > 0
    ensures fnames != [] ==> r == fnames
    ensures fnames == [] ==> r == [CurrentDir]
  {
    if fnames == [] then [CurrentDir] else fnames
  }

  /** Some candidate does not exist, so the lookup loop raises. */
  predicate AnyMissing(names: seq<Path>, locate: Path -> Lookup) {
    exists i :: 0 <= i < |names| && locate(names[i]) == NoSuchPath
  }

  /** The list of repository roots found, in candidate order, one entry per
      candidate that lies inside a repository (duplicates kept). */
  function FoundRoots(names: seq<Path>, locate: Path -> Lookup): (roots: seq<Path>)
    ensures |roots| <= |names|
    ensures forall p :: p in roots <==> exists i :: 0 <= i < |names| && locate(names[i]) == InRepo(p)
  {
    if names == [] then []
    else
      var here := match locate(names[0]) case InRepo(p) => [p] case _ => [];
      var rest := FoundRoots(names[1..], locate);
      assert forall p :: p in rest <==> exists i :: 1 <= i < |names| && locate(names[i]) == InRepo(p) by {
        forall p ensures p in rest <==> exists i :: 1 <= i < |names| && locate(names[i]) == InRepo(p) {
          if p in rest {
            var j :| 0 <= j < |names[1..]| && locate(names[1..][j]) == InRepo(p);
            assert locate(names[j + 1]) == InRepo(p);
          }
          if exists i :: 1 <= i < |names| && locate(names[i]) == InRepo(p) {
            var i :| 1 <= i < |names| && locate(names[i]) == InRepo(p);
            assert locate(names[1..][i - 1]) == InRepo(p);
          }
        }
      }
      here + rest
  }

  /** No candidate lies inside a repository, and all exist. */
  predicate NoneInRepo(names: seq<Path>, locate: Path -> Lookup) {
    forall i :: 0 <= i < |names| ==> locate(names[i]) == NotARepo
  }

  /** Two candidates lie inside different repositories. */
  predicate Conflict(names: seq<Path>, locate: Path -> Lookup) {
    exists i, j ::
      && 0 <= i < |names| && 0 <= j < |names|
      && locate(names[i]).InRepo? && locate(names[j]).InRepo?
      && locate(names[i]) != locate(names[j])
  }

  /** Some candidate lies inside the repository at `root`, and every
      candidate inside a repository lies inside that one. */
  predicate OnlyRoot(names: seq<Path>, locate: Path -> Lookup, root: Path) {
    && (exists i :: 0 <= i < |names| && locate(names[i]) == InRepo(root))
    && (forall i :: 0 <= i < |names| && locate(names[i]).InRepo? ==> locate(names[i]) == InRepo(root))
  }

  /** Construction: fails if a candidate does not exist; otherwise succeeds
      exactly when all candidates that lie inside a repository lie inside the
      same one, and at least one does. */
  function Resolve(fnames: seq<Path>, locate: Path -> Lookup): (r: Result<AiderRepo, ResolveError>)
    ensures r == Failure(MissingPath) <==> AnyMissing(CandidatePaths(fnames), locate)
    ensures r == Failure(NoRepository) <==> NoneInRepo(CandidatePaths(fnames), locate)
    ensures r == Failure(DifferentRepos) <==>
      !AnyMissing(CandidatePaths(fnames), locate) && Conflict(CandidatePaths(fnames), locate)
    ensures forall root :: r == Success(AiderRepo(root)) <==>
      !AnyMissing(CandidatePaths(fnames), locate) && OnlyRoot(CandidatePaths(fnames), locate, root)
  {
    var names := CandidatePaths(fnames);
    var found := FoundRoots(names, locate);
    var distinct := RootSet(names, locate);
    if AnyMissing(names, locate) then
      assert !NoneInRepo(names, locate);
      Failure(MissingPath)
    else if |distinct| == 0 then
      assert distinct == {};
      assert forall p :: p in found ==> p in distinct;
      assert NoneInRepo(names, locate) by {
        forall i | 0 <= i < |names| ensures locate(names[i]) == NotARepo {
          assert locate(names[i]) != NoSuchPath;
        }
      }
      assert !Conflict(names, locate);
      assert forall root :: !OnlyRoot(names, locate, root);
      Failure(NoRepository)
    else if |distinct| > 1 then
      assert Conflict(names, locate) && !NoneInRepo(names, locate) && forall root :: !OnlyRoot(names, locate, root) by {
        var x, y := TwoDistinct(distinct);
        var i :| 0 <= i < |names| && locate(names[i]) == InRepo(x);
        var j :| 0 <= j < |names| && locate(names[j]) == InRepo(y);
      }
      Failure(DifferentRepos)
    else
      var root := found[|found| - 1];
      assert distinct == {root} by { SingletonSet(distinct, root); }
      assert forall i :: 0 <= i < |names| && locate(names[i]).InRepo? ==> locate(names[i]).root in distinct;
      assert OnlyRoot(names, locate, root);
      assert !NoneInRepo(names, locate) && !Conflict(names, locate);
      assert forall root' :: OnlyRoot(names, locate, root') ==> root' == root;
      Success(AiderRepo(root))
  }

  /** The set of roots found among some candidates. */
  function RootSet(names: seq<Path>, locate: Path -> Lookup): set<Path> {
    set p | p in FoundRoots(names, locate)
  }

  lemma SameNamesSameRoots(x: seq<Path>, y: seq<Path>, locate: Path -> Lookup)
    requires forall p :: p in x <==> p in y
    ensures RootSet(x, locate) == RootSet(y, locate)
  {
    var fx, fy := FoundRoots(x, locate), FoundRoots(y, locate);
    forall p | p in fx ensures p in fy {
      var i :| 0 <= i < |x| && locate(x[i]) == InRepo(p);
      assert x[i] in y;
      var j :| 0 <= j < |y| && y[j] == x[i];
    }
    forall p | p in fy ensures p in fx {
      var j :| 0 <= j < |y| && locate(y[j]) == InRepo(p);
      assert y[j] in x;
      var i :| 0 <= i < |x| && x[i] == y[j];
    }
  }

  /** Only which names are candidates matters, not their order or how often
      they repeat: duplicate roots count once. */
  lemma ResolveDependsOnNameSet(x: seq<Path>, y: seq<Path>, locate: Path -> Lookup)
    requires forall p :: p in x <==> p in y
    ensures Resolve(x, locate) == Resolve(y, locate)
  {
    assert x != [] ==> x[0] in y;
    assert y != [] ==> y[0] in x;
    if x == [] || y == [] {
      assert x == [] && y == [];
    } else {
      SameCandidatesSameOutcome(x, y, locate);
    }
  }

  lemma SameCandidatesSameOutcome(x: seq<Path>, y: seq<Path>, locate: Path -> Lookup)
    requires x != [] && y != []
    requires forall p :: p in x <==> p in y
    ensures Resolve(x, locate) == Resolve(y, locate)
  {
    SameNamesSameRoots(x, y, locate);
    if AnyMissing(x, locate) {
      var i :| 0 <= i < |x| && locate(x[i]) == NoSuchPath;
      assert x[i] in y;
      var j :| 0 <= j < |y| && y[j] == x[i];
    }
    if AnyMissing(y, locate) {
      var j :| 0 <= j < |y| && locate(y[j]) == NoSuchPath;
      assert y[j] in x;
      var i :| 0 <= i < |x| && x[i] == y[j];
    }
    var fx, fy := FoundRoots(x, locate), FoundRoots(y, locate);
    var d := RootSet(x, locate);
    if |d| == 1 {
      assert fx[|fx| - 1] in d && fy[|fy| - 1] in d;
      SingletonSet(d, fx[|fx| - 1]);
    }
  }

  /** Consequences of the above: swapping two groups of candidates, or
      repeating a candidate, leaves the outcome unchanged. */
  lemma ResolveOrderIrrelevant(a: seq<Path>, b: seq<Path>, locate: Path -> Lookup)
    ensures Resolve(a + b, locate) == Resolve(b + a, locate)
  {
    ResolveDependsOnNameSet(a + b, b + a, locate);
  }

  lemma ResolveIgnoresRepeats(names: seq<Path>, k: nat, locate: Path -> Lookup)
    requires k < |names|
    ensures Resolve(names + [names[k]], locate) == Resolve(names, locate)
  {
    ResolveDependsOnNameSet(names + [names[k]], names, locate);
  }

  /** Two files of one repository resolve to it; a file outside every
      repository is skipped; files of two different repositories fail; a
      file that does not exist fails whatever the other one is. */
  lemma TwoCandidates(a: Path, b: Path, locate: Path -> Lookup)
    ensures locate(a).InRepo? && locate(a) == locate(b) ==> Resolve([a, b], locate) == Success(AiderRepo(locate(a).root))
    ensures locate(a) == NotARepo && locate(b).InRepo? ==> Resolve([a, b], locate) == Success(AiderRepo(locate(b).root))
    ensures locate(a).InRepo? && locate(b).InRepo? && locate(a) != locate(b) ==> Resolve([a, b], locate) == Failure(DifferentRepos)
    ensures locate(a) == NoSuchPath ==> Resolve([a, b], locate) == Failure(MissingPath)
  {
    var names := [a, b];
    if locate(a).InRepo? && locate(a) == locate(b) {
      assert locate(names[0]) == InRepo(locate(a).root);
    }
    if locate(a) == NotARepo && locate(b).InRepo? {
      assert locate(names[1]) == InRepo(locate(b).root);
    }
    if locate(a).InRepo? && locate(b).InRepo? && locate(a) != locate(b) {
      assert locate(names[0]) != locate(names[1]);
    }
    if locate(a) == NoSuchPath {
      assert locate(names[0]) == NoSuchPath;
    }
  }

  /** A set with more than one element has two distinct members. */
  lemma TwoDistinct<T>(s: set<T>) returns (x: T, y: T)
    requires |s| > 1
    ensures x in s && y in s && x != y
  {
    x :| x in s;
    assert |s - {x}| == |s| - 1;
    y :| y in s - {x};
  }

  /** A one-element set is determined by any of its members. */
  lemma SingletonSet<T>(s: set<T>, x: T)
    requires |s| == 1 && x in s
    ensures s == {x}
  {
    assert |s - {x}| == 0;
  }
}

=== FILE: tracking.dfy ===
/** Tracked files and staging of new files (`get_tracked_files` and
    `add_new_files`). */
module Tracking {
  import opened Wrappers
  import opened Git

  /** The paths of the blob entries of a tree traversal, in traversal order. */
  function BlobPaths(entries: seq<TreeEntry>): (paths: seq<Path>)
    ensures |paths| <= |entries|
    ensures forall p :: p in paths <==> TreeEntry(Blob, p) in entries
  {
    if entries == [] then []
    else
      var rest := BlobPaths(entries[1..]);
      assert forall e :: e in entries <==> e == entries[0] || e in entries[1..];
      if entries[0].kind == Blob then [entries[0].path] + rest else rest
  }

  /** `get_tracked_files`: the paths of the files (blobs) in the tree of the
      HEAD commit; no files at all when HEAD has no commit yet. Directory and
      submodule entries are not files. */
  function TrackedFiles(head: Option<seq<TreeEntry>>): (files: set<Path>)
    ensures head.None? ==> files == {}
    ensures head.Some? ==> forall p :: p in files <==> TreeEntry(Blob, p) in head.value
  {
    match head
    case None => {}
    case Some(entries) => set p | p in BlobPaths(entries)
  }

  /** Whether `fname` names a tracked file. Both sides are compared after
      `Path(...).resolve()`, which `resolve` stands for (aider/repo.py:49, 51). */
  predicate IsTracked(fname: Path, tracked: set<Path>, resolve: Path -> Path) {
    resolve(fname) in (set t | t in tracked :: resolve(t))
  }

  /** The `git add` calls of `add_new_files`, in order: one per given name
      that is not tracked in HEAD. Names are checked against the tracked set
      computed once, before any add, so a repeated untracked name is added
      once per occurrence. */
  function NewFileAdds(fnames: seq<Path>, head: Option<seq<TreeEntry>>, resolve: Path -> Path): (adds: seq<Path>)
    ensures |adds| <= |fnames|
    ensures forall f :: f in adds <==> f in fnames && !IsTracked(f, TrackedFiles(head), resolve)
    ensures forall f :: multiset(adds)[f] == if IsTracked(f, TrackedFiles(head), resolve) then 0 else multiset(fnames)[f]
  {
    if fnames == [] then []
    else
      var rest := NewFileAdds(fnames[1..], head, resolve);
      assert fnames == [fnames[0]] + fnames[1..];
      if IsTracked(fnames[0], TrackedFiles(head), resolve) then rest else [fnames[0]] + rest
  }

  /** The adds for a concatenation are the adds of each part, in order: the
      model issues the calls in input order. */
  lemma NewFileAddsAppend(a: seq<Path>, b: seq<Path>, head: Option<seq<TreeEntry>>, resolve: Path -> Path)
    ensures NewFileAdds(a + b, head, resolve) == NewFileAdds(a, head, resolve) + NewFileAdds(b, head, resolve)
  {
    var adds := s => NewFileAdds(s, head, resolve);
    var first := f => FirstAdd(f, head, resolve);
    forall s | s != [] ensures adds(s) == first(s[0]) + adds(s[1..]) {
      NewFileAddsStep(s, head, resolve);
    }
    MapsConcatenation(a, b, adds, first);
  }

  /** A function on sequences that handles the first element and then the
      rest maps a concatenation to the concatenation of its images. */
  lemma {:induction false} MapsConcatenation(a: seq<Path>, b: seq<Path>, adds: seq<Path> -> seq<Path>, first: Path -> seq<Path>)
    requires adds([]) == []
    requires forall s :: s != [] ==> adds(s) == first(s[0]) + adds(s[1..])
    ensures adds(a + b) == adds(a) + adds(b)
  {
    if a == [] {
      assert a + b == b;
    } else {
      var ab := a + b;
      assert ab[1..] == a[1..] + b;
      assert ab[0] == a[0];
      MapsConcatenation(a[1..], b, adds, first);
      assert adds(ab) == first(a[0]) + adds(a[1..] + b);
      assert first(a[0]) + (adds(a[1..]) + adds(b)) == (first(a[0]) + adds(a[1..])) + adds(b);
    }
  }

  /** The add, if any, of a single name. */
  function FirstAdd(f: Path, head: Option<seq<TreeEntry>>, resolve: Path -> Path): seq<Path> {
    if IsTracked(f, TrackedFiles(head), resolve) then [] else [f]
  }

  /** One step of `NewFileAdds`: the add of the first name, then the rest. */
  lemma NewFileAddsStep(fnames: seq<Path>, head: Option<seq<TreeEntry>>, resolve: Path -> Path)
    requires fnames != []
    ensures NewFileAdds(fnames, head, resolve) == FirstAdd(fnames[0], head, resolve) + NewFileAdds(fnames[1..], head, resolve)
  {
    var rest := NewFileAdds(fnames[1..], head, resolve);
    if IsTracked(fnames[0], TrackedFiles(head), resolve) {
      assert [] + rest == rest;
    }
  }

  /** When path resolution is injective, a name is staged exactly when it is
      not itself a tracked path. */
  lemma NewFileAddsInjective(fnames: seq<Path>, head: Option<seq<TreeEntry>>, resolve: Path -> Path)
    requires forall x, y :: resolve(x) == resolve(y) ==> x == y
    ensures forall f :: f in NewFileAdds(fnames, head, resolve) <==> f in fnames && f !in TrackedFiles(head)
  {
    forall f ensures IsTracked(f, TrackedFiles(head), resolve) <==> f in TrackedFiles(head) {
      if IsTracked(f, TrackedFiles(head), resolve) {
        var t :| t in TrackedFiles(head) && resolve(t) == resolve(f);
      }
    }
  }

  /** In a repository without commits every given name is staged. */
  lemma {:induction false} NoHeadAddsEverything(fnames: seq<Path>, resolve: Path -> Path)
    ensures NewFileAdds(fnames, None, resolve) == fnames
  {
    if fnames != [] {
      assert !IsTracked(fnames[0], TrackedFiles(None), resolve);
      NoHeadAddsEverything(fnames[1..], resolve);
    }
  }

  /** A one-commit repository holding `a/b.txt` and `c.txt` tracks exactly
      those two files; the directory entry `a` is not a file. */
  lemma TrackedFilesExample()
    ensures TrackedFiles(Some([TreeEntry(Tree, "a"), TreeEntry(Blob, "a/b.txt"), TreeEntry(Blob, "c.txt")]))
         == {"a/b.txt", "c.txt"}
  {
    var entries := [TreeEntry(Tree, "a"), TreeEntry(Blob, "a/b.txt"), TreeEntry(Blob, "c.txt")];
    assert TreeEntry(Blob, "a") !in entries;
  }
}

=== FILE: wrappers.dfy ===
/** Optional values and results used throughout the model: `Option` stands for
    Python's `None`-or-value, `Result` for a value or a raised exception. */
module Wrappers {

  datatype Option<+T> = None | Some(value: T)

  datatype Result<+R, +E> = Success(value: R) | Failure(error: E)
}
